=== FILE: README.md ===
# Text pieces service: filter validation, patches and query building

A Dafny model of the pure logic in a small FastAPI service that stores
documents and their text pieces in a relational database. The model covers
three parts:

- **Search-filter validation** (`SearchFilterSchema`). A filter is a field, an
  operator and a value. It is accepted only if five independent root
  validators all pass. pydantic runs every validator and collects the errors
  of the ones that fail.
- **The CRUD handlers**. This covers how a patch body becomes a patch
  dictionary: an empty body is rejected, `size` is derived from `text`, and
  `meta_data` is normalised. It also covers the order of the 400 and 404
  answers, the 404 guards of get and delete, creation with
  `size = len(text)`, and the field-override loop of `modify_db_entity`.
- **The prototype service**. `search_maker` turns a query's items into
  `{"bool": {"must": [...]}}` match clauses and drops falsy values. The
  prototype `TextPiece` validators check the `type` and the `.pdf` suffix.

Modules: `Values` (Option, Result, a JSON value type, Python truthiness),
`Schemas` (bodies, enums, pagination), `SearchFilters`, `Crud`, `Routes` and
`Prototype`. A table is a sequence of rows, and a row is a map from column
name to value. Each handler is a function from the store and the request to
a response and the store afterwards. The database's generated values (the
new primary key and `now()`) are parameters.

## Model

| member | source | states |
|---|---|---|
| `Values.FalsyValues` | main.py:113 | The values a Python `if` treats as false are exactly None, False, 0, "", [] and {}. |
| `Schemas.ParsePieceType` | web/schemas.py:35-37 | A string becomes a text-piece type iff it is "title" or "paragraph", and the parsed member's value is that string. |
| `Schemas.ParseTypeValue` | web/schemas.py:35-37 | Parsing a member's value gives back the member. |
| `Schemas.DocumentFields` | web/schemas.py:40-43 | A document body's dictionary holds exactly `name` and `author`, with the body's values. |
| `Schemas.ValidDocumentIn` | web/schemas.py:40-43 | A document body is valid iff its `name` is non-empty. `author` is unconstrained. |
| `Schemas.DocumentPatchFields` | web/main.py:109 | The non-null dictionary of a document patch has `author` exactly when `author` was sent non-null. |
| `Schemas.TextPieceFields` | web/schemas.py:59-78 | A text-piece body's dictionary has the five schema keys, and `meta_data` is null when it was not sent. |
| `Schemas.ValidTextPieceIn` | web/schemas.py:59-78 | A text-piece body is valid iff `text` and `document_name` are non-empty, `type` is an enum value and `page` is greater than 0. |
| `Schemas.TextPiecePatchFields` | web/main.py:212 | The non-null dictionary of a text-piece patch has a key exactly for each field sent with a value, holding that value. |
| `Schemas.ValidTextPiecePatch` | web/schemas.py:91-110 | A patch body is valid iff every field sent with a value meets the create body's constraint for it. Null is allowed for every field. |
| `Schemas.CreateAndPatchConstraintsAgree` | web/schemas.py:59-110 | A create body is valid iff the same fields, sent as a patch, are a valid patch. |
| `Schemas.FieldConstraintBoundaries` | web/schemas.py:40-110 | Empty `name`, `text` or `document_name`, page 0 and an unknown type are rejected. Page 1 and an empty `author` are accepted, and so is a patch of nulls. |
| `Schemas.ParsePagination` | web/schemas.py:113-115 | A missing page number or size defaults to 1 or 15, an explicit null stays null, and a sent integer is kept unchanged. |
| `Schemas.PaginationDefaultsAndNoBound` | web/schemas.py:113-115 | An empty pagination gives (1, 15), and zero or negative values are accepted as they are. |
| `SearchFilters.ParseField` | web/schemas.py:153-155 | A parsed field's name is the input string. |
| `SearchFilters.ParseOperator` | web/schemas.py:156-158 | A parsed operator's name is the input string, and parsing never yields the countable `eq` because the text enum is tried first. |
| `SearchFilters.ParseNames` | web/schemas.py:118-144 | Every field and every operator except the countable `eq` is reached by parsing its own name, and "eq" parses to the text `eq`. |
| `SearchFilters.Violations` | web/schemas.py:161-218 | The reported errors are exactly the validators in the list that fail. |
| `SearchFilters.TextFieldOperatorsOk` | web/schemas.py:161-174 | A text field passes only with an operator of `TextOperator`. |
| `SearchFilters.InIsIterableOk` | web/schemas.py:176-184 | With `in`, only an int value fails, since strings and lists are iterable. |
| `SearchFilters.MatchOnlyTextFieldsOk` | web/schemas.py:186-198 | `match` passes only on `text` and `document_name`. |
| `SearchFilters.IndexedIsBooleanOk` | web/schemas.py:200-208 | `indexed` passes only with a value equal to True or False, which means the ints 1 and 0. |
| `SearchFilters.TypeIsEnumOk` | web/schemas.py:210-218 | `type` passes only with "title" or "paragraph". |
| `SearchFilters.Valid` | web/schemas.py:161-218 | A filter is valid iff all five root validators pass. |
| `SearchFilters.Validate` | web/schemas.py:152-218 | A filter is accepted iff all five checks hold. A rejected filter reports a non-empty error list naming exactly the failing checks. |
| `SearchFilters.OrderIndependent` | web/schemas.py:161-218 | Two lists of the same validators accept the same filters, whatever the order. |
| `SearchFilters.TextFieldRejectsCountableOperators` | web/schemas.py:161-174 | A text field with `in`, `gt`, `gte`, `lt` or `lte` is rejected for every value. |
| `SearchFilters.MatchOnlyOnTextFields` | web/schemas.py:186-198 | `match` is accepted iff the field is `text` or `document_name`. |
| `SearchFilters.InNeedsIterable` | web/schemas.py:176-184 | With `in` on a countable field, an int value is rejected, while lists and strings pass. |
| `SearchFilters.IndexedAcceptsOnlyBooleans` | web/schemas.py:200-208 | `indexed` accepts exactly the ints 1 and 0, which are what JSON booleans become. The string "true" is rejected. |
| `SearchFilters.TypeAcceptsOnlyEnumValues` | web/schemas.py:210-218 | `type` accepts exactly "title" and "paragraph", so "wrong type" is rejected. |
| `SearchFilters.CountableComparisonsAccepted` | web/schemas.py:161-218 | A countable field with `eq` or `gt` and an int value is valid. |
| `SearchFilters.TextGreaterThanReported` | web/schemas.py:161-174 | `text` with `gt` fails exactly the text-operator check. |
| `Crud.FindRow` | web/crud.py:34-45 | Lookup returns the first row whose key column holds the key, or None iff no row holds it. |
| `Crud.GetEntity` | web/crud.py:34-45 | `get_db_entity` returns a row of the table holding the key iff such a row exists. |
| `Crud.CreateEntity` | web/crud.py:27 | The new row holds every schema field and every extra keyword field. A key passed twice is an error. |
| `Crud.ApplyPatch` | web/crud.py:60-61 | After patching, every patch key holds its new value and every other column keeps its old value. |
| `Crud.ModifyEntity` | web/crud.py:48-63 | The `setattr` loop over the patch items ends with every patch key overwritten and nothing else changed. |
| `Crud.ApplyEmptyPatch` | web/crud.py:60-61 | An empty patch leaves the row unchanged. |
| `Crud.ApplyPatchIdempotent` | web/crud.py:60-61 | Applying the same patch twice equals applying it once. |
| `Crud.ApplyPatchCompose` | web/crud.py:60-61 | Two patches in a row equal one merged patch in which the later patch wins. |
| `Crud.DeleteRow` | web/crud.py:66-76 | Deleting removes exactly one row and keeps the order of the others. |
| `Crud.DeletedKeyIsGone` | web/crud.py:75 | After deleting the row found by a primary key, that key is no longer found. |
| `Routes.DocumentPatchData` | web/main.py:109-113 | A document patch is rejected iff `author` is missing or null. Otherwise the patch sets `author` alone. |
| `Routes.TextPiecePatchData` | web/main.py:210-220 | A text-piece patch is rejected iff no field other than `meta_data` is sent non-null and `meta_data` was not sent at all. Null fields never enter the patch. `size` is present iff `text` is, and equals its length. A sent falsy `meta_data` (null or {}) becomes null. |
| `Routes.PatchNeverSetsServerFields` | web/main.py:210-220 | No patch carries `indexed`, `piece_id` or `created_at`, and `size` only ever equals the length of the patched `text`. |
| `Routes.PatchKeepsSizeConsistent` | web/main.py:217-218 | A patch keeps a row's `size` equal to the length of its `text`. |
| `Routes.FindDocumentAsWritten` | web/crud.py:34-45 | As written, a key that is not an in-range integer numeral is a database error. Otherwise it is missing iff no row has that `document_id`, and a found row holds that id. |
| `Routes.GetDocumentAsWritten` | web/main.py:80-89 | With the lookup as written, the lookup's database error is 500, a missing id is 404, and a found row is 200 with that row. A non-numeric or out-of-range name is therefore always 500. |
| `Routes.LookupByNameAsWrittenMisses` | web/crud.py:44 | As written, a stored document named "Interesting book" is unreachable by its name, while the name "1" reaches document id 1. |
| `Routes.PatchDocumentAsWritten` | web/main.py:103-121 | With the lookup as written, an empty body is still 400. Otherwise the lookup's database error is 500, a missing id is 404, and a found row is patched. |
| `Routes.DeleteDocumentAsWritten` | web/main.py:134-144 | With the lookup as written, the lookup's database error is 500, a missing id is 404, and a found row is deleted. |
| `Routes.PatchAndDeleteByNameAsWrittenFail` | web/main.py:114 | As written, patching or deleting the document "Interesting book" by its name is a 500. The lookup by name patches it, or deletes it and leaves an empty table. |
| `Routes.FindDocument` | web/main.py:84 | This is the corrected lookup of the Findings row. A document is found iff some stored document has that name. |
| `Routes.PostDocument` | web/main.py:58-66 | An invalid body is 422. A valid body is created iff its name and id are free, and otherwise the database error is 500. The appended row is the body's `name` and `author` with the new `document_id`, and it is findable by name. Any answer but 201 leaves the store unchanged. |
| `Routes.GetDocument` | web/main.py:80-89 | With the lookup by name (the corrected lookup of the Findings row), the answer is 404 iff no document has the name. Otherwise it is 200 with the stored document of that name. |
| `Routes.PatchDocument` | web/main.py:103-121 | With the lookup by name (the corrected lookup of the Findings row), the answer is 400 iff the body has no `author`, checked before the lookup. It is 404 iff the name is then absent, and 200 iff `author` is sent and the name is present. In that case `author` is overwritten in place and nothing else changes. |
| `Routes.DeleteDocument` | web/main.py:134-144 | With the lookup by name (the corrected lookup of the Findings row), the answer is 404 iff the name is absent, with nothing deleted. Otherwise exactly that row is removed. |
| `Routes.PostTextPiece` | web/main.py:158-168 | An invalid body is 422. A valid body is created iff the id is free and `page` fits the INTEGER column, and otherwise the database error is 500. The new row holds every schema field with the body's value, `size = len(text)`, `indexed` false, the new id and the creation time. |
| `Routes.NewPieceRowShape` | web/main.py:164-166 | The created row merges the schema fields with `size` without a clash. It has `size = len(text)`, `indexed` false and the new id. |
| `Routes.GetTextPiece` | web/main.py:182-190 | The answer is 404 iff no piece has the id. Otherwise it is 200 with that stored piece. |
| `Routes.PatchTextPiece` | web/main.py:204-228 | The order is 422, then 400 for an empty patch whatever the store holds, then 404 for an absent id. After that, a patched `page` beyond the INTEGER column is 500 and anything else is 200. Each answer is an iff. On 200 the row is overwritten by the patch in place and nothing else changes. |
| `Routes.DeleteTextPiece` | web/main.py:241-251 | The answer is 404 iff the id is absent, with nothing deleted. Otherwise exactly the row holding that `piece_id` is removed, and the order of the others is kept. |
| `Routes.EmptyDocumentPatchBeforeLookup` | web/main.py:109-118 | An empty or null document patch on a missing document is 400, not 404. |
| `Routes.NullOnlyTextPiecePatch` | web/main.py:210-220 | A body of nulls, with `meta_data` left out, is 400. A body with only `meta_data` set to null or {} is the patch `meta_data = null`. |
| `Routes.PostTextPieceKeepsSizeConsistent` | web/main.py:164-166 | Creating a piece keeps every stored piece's `size` equal to the length of its `text`. |
| `Routes.PatchTextPieceKeepsSizeConsistent` | web/main.py:217-218 | Patching a piece keeps every stored piece's `size` equal to the length of its `text`. |
| `Routes.DeleteTextPieceKeepsSizeConsistent` | web/main.py:241-251 | Deleting a piece keeps every remaining piece's `size` equal to the length of its `text`. |
| `Routes.HandlersKeepSizeConsistent` | web/main.py:158-228 | Every handler keeps every stored piece's `size` equal to the length of its `text`. |
| `Routes.PatchKeepsServerFields` | web/main.py:204-228 | A text-piece patch never changes any row's `indexed`, `piece_id` or `created_at`. |
| `Prototype.Clauses` | main.py:113 | No more clauses are emitted than there are items. |
| `Prototype.SearchMaker` | main.py:112-114 | The query is an object with only `bool`, which holds only `must`. `must` is the list of clauses `Clauses` builds from the items. |
| `Prototype.ClauseCount` | main.py:113 | The number of clauses is the number of items with a truthy value. |
| `Prototype.ClauseAt` | main.py:113 | Each truthy item's clause is `{"match": {key: val}}`, with key and value unchanged. It sits at the position counted by the truthy items before it. |
| `Prototype.ClauseOrder` | main.py:113 | A truthy item before another truthy item gets the earlier clause. |
| `Prototype.ClauseOrigin` | main.py:113 | Every clause is the match clause of some truthy item. |
| `Prototype.ClausesAppend` | main.py:113 | The clauses of two runs of items are the clauses of each, in order. |
| `Prototype.FalsyItemDropped` | main.py:113 | A None, 0 or "" value produces no clause. |
| `Prototype.QueryItems` | main.py:89-94 | The query's dictionary has its five fields in declaration order. |
| `Prototype.QueryExamples` | main.py:67-86 | The empty query gives `must: []`. Page 0 is dropped and -10 kept, and text plus type gives two clauses in that order. |
| `Prototype.PieceIdAlwaysMatched` | main.py:89-113 | A sent `piece_id` always gives its match clause, because a parsed UUID is never falsy. |
| `Prototype.PossibleContentType` | main.py:22-26 | A type is accepted iff it is "paragraph" or "title", and it is returned unchanged. |
| `Prototype.IsPdf` | main.py:28-32 | An accepted name is returned unchanged and has at least the four characters of ".pdf". |
| `Prototype.IsPdfIffPdfStem` | main.py:28-32 | A name is accepted iff it is some stem followed by ".pdf". |
| `Prototype.ValidateTextPiece` | main.py:14-32 | A body has no errors iff both validators pass. The page number is unconstrained. |
| `Prototype.BodyExamples` | main.py:35-64 | Both passing examples pass, the first with page 0. The invalid example fails both checks. |

## Left out

- The query compiler, the reindex pipeline and the search executor are not in web/main.py, web/schemas.py, web/crud.py or main.py, the files this model covers. That covers must/filter dispatch, the keyword sub-field, offsets, sorting, and delete-then-bulk-insert. They are not modelled.
- Elasticsearch is not modelled because these are network calls into a foreign client. This covers client setup (web/es.py), index creation (web/es_utils.py) and the prototype's `es.index`/`es.search` calls (main.py:97-109).
- Some database rules are not modelled: the foreign key from `document_name` and the `page > 1` check constraint. The INTEGER range of `page` is modelled. That check in web/models.py:43 disagrees with the schema's `page > 0` (web/schemas.py:67-69), and the migration declares no check at all. The model follows the schema. A taken name or primary key is modelled as a 500.
- How pydantic turns JSON into a body is taken as given. Filter values are modelled after coercion, so JSON `true`/`false` arrive as 1/0 and numeric strings as ints. Type errors in a body are the single `Unprocessable` (422) answer.
- Root validators that run after a field already failed to parse (`values.get` returning None) are not modelled. The model starts from a parsed field and operator.
- Exception-to-500 mapping (web/errors.py), sessions (web/database.py), configuration (web/constants.py) and logging (web/logger.py) are not modelled. They are plumbing: database errors are the `ServerError` answer, and logging has no effect on results.
- The ORM relationship's cascade, which removes a deleted document's text pieces (web/models.py:23-27), is not modelled. It is SQLAlchemy's session cascade, not a database rule, and the migration declares no ON DELETE CASCADE.
- The `size` column's INTEGER range is not checked. PostgreSQL caps a text value at 1 GB, so `len(text)` stays below 2^31.
- web/main.py uses a `DocumentSchema` that web/schemas.py does not define, so as written the module cannot be imported. The model reads a document request body as `DocumentInSchema` (`name`, `author`). It reads the GET and PATCH responses as `DocumentOutSchema`, the stored row with `document_id`. The POST response echoes the body.
- The prototype's `TextPiece` defaults are not modelled because they do not affect validation. These are `uuid4()` and `datetime.now()`, both evaluated once at import.
- Routes.FindDocumentAsWritten: treats only plain ASCII digit strings up to 2^31-1 as integer keys, and so do the three as-written handlers built on it. PostgreSQL also accepts signs and surrounding spaces.
- Prototype.IsPdf: its own contract only says an accepted name is returned unchanged. The exact acceptance condition, a stem followed by ".pdf", is stated by `IsPdfIffPdfStem`.
- Prototype.Clauses: its own contract is only a length bound. The exact content and order of the clauses are stated by `ClauseCount`, `ClauseAt`, `ClauseOrder` and `ClauseOrigin`.

## Findings

| source | as written | input that shows it | evidently intended | confidence | as-written member | corrected member |
|---|---|---|---|---|---|---|
| web/crud.py:44 | The document routes call `get_db_entity(session, document_name, Document)` for GET, PATCH and DELETE (web/main.py:84, 114, 138). That is `query.get`, which searches the primary key `document_id`, an INTEGER column, not `name`. | Take a store holding `{document_id: 1, name: "Interesting book"}`. A GET, a PATCH `{"author": "Jules Verne"}` or a DELETE for "Interesting book" each gives a database error (500) instead of acting on the document. A GET for "1" returns that document. | Look the document up by its unique `name`. | medium, not executed | `Routes.FindDocumentAsWritten`, `Routes.GetDocumentAsWritten`, `Routes.PatchDocumentAsWritten`, `Routes.DeleteDocumentAsWritten`, `Routes.LookupByNameAsWrittenMisses`, `Routes.PatchAndDeleteByNameAsWrittenFail` | `Routes.GetDocument`, `Routes.PatchDocument`, `Routes.DeleteDocument` (with `Routes.FindDocument`) |

=== FILE: crud.dfy ===
/** The generic database helpers of web/crud.py over an in-memory table.
    A table is the sequence of its rows; a row is a map from column name to
    value, the shape `setattr` works on. */
module Crud {
  import opened Values
  import opened Schemas

  type Table = seq<Entity>

  /** Row `row` of `t` holds `value` in `column`. */
  predicate HasValue(t: Table, row: int, column: string, value: Json)
  {
    0 <= row < |t| && column in t[row] && t[row][column] == value
  }

  /** `session.query(model).get(key)`: the position of the row whose key
      column holds `key`, or None when there is none. */
  function FindRow(t: Table, column: string, key: Json): (r: Option<nat>)
    ensures r.Some? ==> HasValue(t, r.value, column, key)
    ensures r.Some? ==> forall i :: 0 <= i < r.value ==> !HasValue(t, i, column, key)
    ensures r.None? <==> forall i :: 0 <= i < |t| ==> !HasValue(t, i, column, key)
  {
    if t == [] then None
    else if column in t[0] && t[0][column] == key then
      assert HasValue(t, 0, column, key);
      Some(0)
    else
      assert forall i :: 1 <= i < |t| ==> HasValue(t, i, column, key) == HasValue(t[1..], i - 1, column, key);
      match FindRow(t[1..], column, key)
      case None => None
      case Some(j) =>
        assert HasValue(t, j + 1, column, key);
        Some(j + 1)
  }

  /** `get_db_entity`: the row with that key, if any. */
  function GetEntity(t: Table, column: string, key: Json): (r: Option<Entity>)
    ensures r.Some? <==> exists i :: HasValue(t, i, column, key)
    ensures r.Some? ==> r.value in t && column in r.value && r.value[column] == key
  {
    match FindRow(t, column, key)
    case None => None
    case Some(i) => Some(t[i])
  }

  /** `model(**entity.dict(), **kwargs)`: the row built from a body's fields
      and extra keyword fields. A key passed twice raises a TypeError in
      Python, which is the None result here. */
  function CreateEntity(fields: Entity, extra: Entity): (r: Option<Entity>)
    ensures r.Some? <==> fields.Keys !! extra.Keys
    ensures r.Some? ==> r.value.Keys == fields.Keys + extra.Keys
    ensures r.Some? ==> forall k :: k in fields ==> r.value[k] == fields[k]
    ensures r.Some? ==> forall k :: k in extra ==> r.value[k] == extra[k]
  {
    if fields.Keys !! extra.Keys then Some(fields + extra) else None
  }

  /** The result of `modify_db_entity`: every key of the patch now holds the
      patch's value and every other column keeps its value. */
  function ApplyPatch(e: Entity, patch: Entity): (r: Entity)
    ensures r.Keys == e.Keys + patch.Keys
    ensures forall k :: k in patch ==> r[k] == patch[k]
    ensures forall k :: k in e && k !in patch ==> r[k] == e[k]
  {
    e + patch
  }

  /** `modify_db_entity` as written: one `setattr` per item of the patch
      dictionary. A dictionary's keys are distinct, so the order of the items
      does not matter and the loop takes them in any order. */
  method ModifyEntity(e: Entity, patch: Entity) returns (r: Entity)
    ensures r.Keys == e.Keys + patch.Keys
    ensures forall k :: k in patch ==> r[k] == patch[k]
    ensures forall k :: k in e && k !in patch ==> r[k] == e[k]
  {
    r := e;
    var pending := patch.Keys;
    while pending != {}
      invariant pending <= patch.Keys
      invariant r.Keys == e.Keys + (patch.Keys - pending)
      invariant forall k :: k in patch && k !in pending ==> r[k] == patch[k]
      invariant forall k :: k in e && (k !in patch || k in pending) ==> r[k] == e[k]
      decreases pending
    {
      var k :| k in pending;
      r := r[k := patch[k]];
      pending := pending - {k};
    }
  }

  /** An empty patch changes nothing. */
  lemma ApplyEmptyPatch(e: Entity)
    ensures ApplyPatch(e, map[]) == e
  {
  }

  /** Applying the same patch twice is the same as applying it once. */
  lemma ApplyPatchIdempotent(e: Entity, patch: Entity)
    ensures ApplyPatch(ApplyPatch(e, patch), patch) == ApplyPatch(e, patch)
  {
  }

  /** Two patches in a row act as one patch in which the later wins. */
  lemma ApplyPatchCompose(e: Entity, p1: Entity, p2: Entity)
    ensures ApplyPatch(ApplyPatch(e, p1), p2) == ApplyPatch(e, ApplyPatch(p1, p2))
  {
  }

  /** `session.delete(row)`: the table without the row at `i`. */
  function DeleteRow(t: Table, i: nat): (r: Table)
    requires i < |t|
    ensures |r| == |t| - 1
    ensures forall j :: 0 <= j < i ==> r[j] == t[j]
    ensures forall j :: i <= j < |r| ==> r[j] == t[j + 1]
  {
    t[..i] + t[i + 1..]
  }

  /** A key column whose values are pairwise distinct (a primary key). */
  predicate UniqueKey(t: Table, column: string)
  {
    forall i, j :: 0 <= i < j < |t| && column in t[i] && column in t[j] ==> t[i][column] != t[j][column]
  }

  /** After deleting the row a unique key found, that key is no longer found. */
  lemma DeletedKeyIsGone(t: Table, column: string, key: Json)
    requires UniqueKey(t, column)
    requires FindRow(t, column, key).Some?
    ensures FindRow(DeleteRow(t, FindRow(t, column, key).value), column, key).None?
  {
    var i := FindRow(t, column, key).value;
    var r := DeleteRow(t, i);
    forall j | 0 <= j < |r|
      ensures !HasValue(r, j, column, key)
    {
      if j >= i {
        assert r[j] == t[j + 1];
        assert column in t[j + 1] ==> t[j + 1][column] != t[i][column];
      }
    }
  }
}

=== FILE: filters.dfy ===
/** The search filter (web/schemas.py, `SearchFilterSchema`): a field, an
    operator and a value, accepted only if each of five independent root
    validators passes. pydantic runs every root validator and collects the
    errors of those that fail, in declaration order. */
module SearchFilters {
  import opened Values

  datatype TextField = MetaData | DocumentName | Indexed | Type | Text
  datatype CountableField = PieceId | Size | Page | CreatedAt

  /** `Union[TextField, CountableField]`: the two enums have no value in
      common, so the union is disjoint. */
  datatype Field = TextKind(text: TextField) | CountableKind(countable: CountableField)

  datatype TextOperator = TextEq | Match
  datatype CountableOperator = CountableEq | In | Gt | Gte | Lt | Lte

  /** `Union[TextOperator, CountableOperator]`, keeping which enum the member
      belongs to: `"eq"` exists in both. */
  datatype Operator = TextOp(textOp: TextOperator) | CountableOp(countableOp: CountableOperator)

  datatype Scalar = IntScalar(i: int) | StrScalar(s: string)

  /** `Union[int, str, List[Union[int, str]]]` after pydantic's coercion
      (which tries `int` first, so a JSON `true` arrives as 1 and `false`
      as 0). */
  datatype Value = IntValue(i: int) | StrValue(s: string) | ListValue(items: seq<Scalar>)

  datatype Filter = Filter(field: Field, operator: Operator, value: Value)

  // ------------------------------------------------------------------ parsing

  function TextFieldName(f: TextField): string
  {
    match f
    case MetaData => "meta_data"
    case DocumentName => "document_name"
    case Indexed => "indexed"
    case Type => "type"
    case Text => "text"
  }

  function CountableFieldName(f: CountableField): string
  {
    match f
    case PieceId => "piece_id"
    case Size => "size"
    case Page => "page"
    case CreatedAt => "created_at"
  }

  function FieldName(f: Field): string
  {
    match f
    case TextKind(t) => TextFieldName(t)
    case CountableKind(c) => CountableFieldName(c)
  }

  function OperatorName(op: Operator): string
  {
    match op
    case TextOp(TextEq) => "eq"
    case TextOp(Match) => "match"
    case CountableOp(CountableEq) => "eq"
    case CountableOp(In) => "in"
    case CountableOp(Gt) => "gt"
    case CountableOp(Gte) => "gte"
    case CountableOp(Lt) => "lt"
    case CountableOp(Lte) => "lte"
  }

  /** Coercion of a string into `Union[TextField, CountableField]`: the left
      enum is tried first. */
  function ParseField(s: string): (r: Option<Field>)
    ensures r.Some? ==> FieldName(r.value) == s
  {
    if s == "meta_data" then Some(TextKind(MetaData))
    else if s == "document_name" then Some(TextKind(DocumentName))
    else if s == "indexed" then Some(TextKind(Indexed))
    else if s == "type" then Some(TextKind(Type))
    else if s == "text" then Some(TextKind(Text))
    else if s == "piece_id" then Some(CountableKind(PieceId))
    else if s == "size" then Some(CountableKind(Size))
    else if s == "page" then Some(CountableKind(Page))
    else if s == "created_at" then Some(CountableKind(CreatedAt))
    else None
  }

  /** Coercion of a string into `Union[TextOperator, CountableOperator]`: the
      left enum is tried first, so `"eq"` becomes the TEXT operator. */
  function ParseOperator(s: string): (r: Option<Operator>)
    ensures r.Some? ==> OperatorName(r.value) == s
    ensures r != Some(CountableOp(CountableEq))
  {
    if s == "eq" then Some(TextOp(TextEq))
    else if s == "match" then Some(TextOp(Match))
    else if s == "in" then Some(CountableOp(In))
    else if s == "gt" then Some(CountableOp(Gt))
    else if s == "gte" then Some(CountableOp(Gte))
    else if s == "lt" then Some(CountableOp(Lt))
    else if s == "lte" then Some(CountableOp(Lte))
    else None
  }

  /** Every field and every operator is reached by parsing its own name,
      except the countable `eq`, whose name the text `eq` takes first. */
  lemma ParseNames(f: Field, op: Operator)
    ensures ParseField(FieldName(f)) == Some(f)
    ensures op != CountableOp(CountableEq) ==> ParseOperator(OperatorName(op)) == Some(op)
    ensures ParseOperator(OperatorName(CountableOp(CountableEq))) == Some(TextOp(TextEq))
  {
  }

  // --------------------------------------------------------------- validators

  /** The five root validators, in declaration order. */
  datatype Rule =
    | TextFieldOperators
    | InIsIterable
    | MatchOnlyTextFields
    | IndexedIsBoolean
    | TypeIsEnum

  const Validators: seq<Rule> :=
    [TextFieldOperators, InIsIterable, MatchOnlyTextFields, IndexedIsBoolean, TypeIsEnum]

  /** `check_text_field_operators`: a text field must not be used with an
      operator outside `TextOperator`. */
  predicate TextFieldOperatorsOk(f: Filter)
  {
    f.field.TextKind? ==> f.operator.TextOp?
  }

  /** `check_operator_in_isinstance_list`: the `in` operator needs an
      iterable value; a `str` is iterable in Python, so only an int fails. */
  predicate InIsIterableOk(f: Filter)
  {
    f.operator == CountableOp(In) ==> !f.value.IntValue?
  }

  /** `check_match_only_text_and_document_name`. */
  predicate MatchOnlyTextFieldsOk(f: Filter)
  {
    f.operator == TextOp(Match) ==> f.field in {TextKind(Text), TextKind(DocumentName)}
  }

  /** `check_indexed_boolead`: `value not in (True, False)` compares with
      `==`, so exactly the ints 1 and 0 pass; no string or list equals a
      bool. */
  predicate IndexedIsBooleanOk(f: Filter)
  {
    f.field == TextKind(Indexed) ==> f.value in {IntValue(0), IntValue(1)}
  }

  /** `check_type_enum`: the value must equal one of the enum's values. */
  predicate TypeIsEnumOk(f: Filter)
  {
    f.field == TextKind(Type) ==> f.value in {StrValue("title"), StrValue("paragraph")}
  }

  predicate Holds(rule: Rule, f: Filter)
  {
    match rule
    case TextFieldOperators => TextFieldOperatorsOk(f)
    case InIsIterable => InIsIterableOk(f)
    case MatchOnlyTextFields => MatchOnlyTextFieldsOk(f)
    case IndexedIsBoolean => IndexedIsBooleanOk(f)
    case TypeIsEnum => TypeIsEnumOk(f)
  }

  /** A filter the schema accepts: the conjunction of the five checks. */
  predicate Valid(f: Filter)
  {
    && TextFieldOperatorsOk(f)
    && InIsIterableOk(f)
    && MatchOnlyTextFieldsOk(f)
    && IndexedIsBooleanOk(f)
    && TypeIsEnumOk(f)
  }

  /** Runs `rules` in order and collects the ones that fail. */
  function Violations(rules: seq<Rule>, f: Filter): (r: seq<Rule>)
    ensures |r| <= |rules|
    ensures forall rule :: rule in r <==> rule in rules && !Holds(rule, f)
  {
    if rules == [] then []
    else
      var rest := Violations(rules[1..], f);
      if Holds(rules[0], f) then rest else [rules[0]] + rest
  }

  /** Validation of a parsed filter: the filter itself, or every validator
      error in declaration order. */
  function Validate(f: Filter): (r: Result<Filter, seq<Rule>>)
    ensures r.Success? <==> Valid(f)
    ensures r.Success? ==> r.value == f
    ensures r.Failure? ==> r.error != [] && forall rule :: rule in r.error <==> !Holds(rule, f)
  {
    var errors := Violations(Validators, f);
    EveryRuleIsAValidator();
    if errors == [] then
      assert forall rule :: rule in Validators ==> Holds(rule, f);
      assert Holds(TextFieldOperators, f) && Holds(InIsIterable, f) && Holds(MatchOnlyTextFields, f);
      assert Holds(IndexedIsBoolean, f) && Holds(TypeIsEnum, f);
      Success(f)
    else
      assert errors[0] in errors;
      Failure(errors)
  }

  lemma EveryRuleIsAValidator()
    ensures forall rule: Rule :: rule in Validators
  {
    forall rule: Rule
      ensures rule in Validators
    {
      match rule
      case TextFieldOperators => assert Validators[0] == rule;
      case InIsIterable => assert Validators[1] == rule;
      case MatchOnlyTextFields => assert Validators[2] == rule;
      case IndexedIsBoolean => assert Validators[3] == rule;
      case TypeIsEnum => assert Validators[4] == rule;
    }
  }

  /** Acceptance does not depend on the order the validators run in: any two
      lists of the same validators accept the same filters. */
  lemma {:induction false} OrderIndependent(rules1: seq<Rule>, rules2: seq<Rule>, f: Filter)
    requires forall r :: r in rules1 <==> r in rules2
    ensures Violations(rules1, f) == [] <==> Violations(rules2, f) == []
  {
    if Violations(rules1, f) != [] {
      var bad := Violations(rules1, f)[0];
      assert bad in Violations(rules1, f);
      assert bad in Violations(rules2, f);
    }
    if Violations(rules2, f) != [] {
      var bad := Violations(rules2, f)[0];
      assert bad in Violations(rules2, f);
      assert bad in Violations(rules1, f);
    }
  }

  // ------------------------------------------------------------- consequences

  /** A text field with `in`, `gt`, `gte`, `lt` or `lte` is rejected whatever
      the value. */
  lemma TextFieldRejectsCountableOperators(t: TextField, op: CountableOperator, v: Value)
    requires op in {In, Gt, Gte, Lt, Lte}
    ensures Validate(Filter(TextKind(t), CountableOp(op), v)).Failure?
  {
  }

  /** `match` is accepted only on `text` or `document_name`, and on those two
      fields it is accepted for every value. */
  lemma MatchOnlyOnTextFields(field: Field, v: Value)
    ensures Validate(Filter(field, TextOp(Match), v)).Success? <==>
      field == TextKind(Text) || field == TextKind(DocumentName)
  {
  }

  /** With `in` on a countable field, an int value is rejected while a list
      or a string value passes. */
  lemma InNeedsIterable(c: CountableField, v: Value)
    ensures Validate(Filter(CountableKind(c), CountableOp(In), v)).Success? <==> !v.IntValue?
  {
  }

  /** The `indexed` field accepts exactly the values equal to True or False:
      the ints 1 and 0, which is what JSON `true` and `false` become. */
  lemma IndexedAcceptsOnlyBooleans(v: Value)
    ensures Validate(Filter(TextKind(Indexed), TextOp(TextEq), v)).Success? <==>
      v == IntValue(1) || v == IntValue(0)
    ensures Validate(Filter(TextKind(Indexed), TextOp(TextEq), StrValue("true"))).Failure?
  {
  }

  /** The `type` field accepts `"title"` and `"paragraph"` and nothing else. */
  lemma TypeAcceptsOnlyEnumValues(v: Value)
    ensures Validate(Filter(TextKind(Type), TextOp(TextEq), v)).Success? <==>
      v == StrValue("title") || v == StrValue("paragraph")
    ensures Validate(Filter(TextKind(Type), TextOp(TextEq), StrValue("wrong type"))).Failure?
  {
  }

  /** A countable field with `eq` (as parsed) or `gt` and an int value is a
      valid filter. */
  lemma CountableComparisonsAccepted(c: CountableField, n: int)
    ensures Validate(Filter(CountableKind(c), TextOp(TextEq), IntValue(n))).Success?
    ensures Validate(Filter(CountableKind(c), CountableOp(Gt), IntValue(n))).Success?
  {
  }

  /** The `text`/`gt` filter fails exactly the text-operator check. */
  lemma TextGreaterThanReported(n: int)
    ensures var r := Validate(Filter(TextKind(Text), CountableOp(Gt), IntValue(n)));
      r.Failure? && forall rule :: rule in r.error <==> rule == TextFieldOperators
  {
  }
}

=== FILE: prototype.dfy ===
/** The prototype service (main.py): the query builder `search_maker` and
    the validators of its `TextPiece` body. */
module Prototype {
  import opened Values

  /** One item of an ordered dictionary. */
  type Item = (string, Json)

  // ------------------------------------------------------------ search_maker

  /** `{"match": {key: val}}`. */
  function MatchClause(key: string, val: Json): Json
  {
    JObject(map["match" := JObject(map[key := val])])
  }

  /** The clause one item contributes: its match clause when its value is
      truthy, nothing otherwise. */
  function ItemClause(item: Item): seq<Json>
  {
    if Truthy(item.1) then [MatchClause(item.0, item.1)] else []
  }

  /** `[{"match": {key: val}} for key, val in query.items() if val]`. */
  function Clauses(query: seq<Item>): (r: seq<Json>)
    ensures |r| <= |query|
  {
    if query == [] then [] else ItemClause(query[0]) + Clauses(query[1..])
  }

  /** `search_maker`: `{"bool": {"must": clauses}}`. */
  function SearchMaker(query: seq<Item>): (r: Json)
    ensures r.JObject? && r.fields.Keys == {"bool"}
    ensures r.fields["bool"].JObject? && r.fields["bool"].fields.Keys == {"must"}
    ensures r.fields["bool"].fields["must"].JList?
    ensures r.fields["bool"].fields["must"].items == Clauses(query)
    ensures |r.fields["bool"].fields["must"].items| <= |query|
  {
    JObject(map["bool" := JObject(map["must" := JList(Clauses(query))])])
  }

  /** The clause list `SearchMaker` puts under `bool.must`. */
  function MustOf(search: Json): seq<Json>
    requires search.JObject? && "bool" in search.fields
    requires search.fields["bool"].JObject? && "must" in search.fields["bool"].fields
    requires search.fields["bool"].fields["must"].JList?
  {
    search.fields["bool"].fields["must"].items
  }

  /** The number of items before position `i` whose value is truthy: the
      position of item `i`'s clause. */
  function TruthyBefore(query: seq<Item>, i: nat): nat
    requires i <= |query|
  {
    if i == 0 then 0
    else TruthyBefore(query, i - 1) + (if Truthy(query[i - 1].1) then 1 else 0)
  }

  /** The clauses are exactly one per truthy item: their number is the number
      of truthy items. */
  lemma {:induction false} ClauseCount(query: seq<Item>)
    ensures |Clauses(query)| == TruthyBefore(query, |query|)
  {
    if query != [] {
      ClauseCount(query[1..]);
      TruthyBeforeTail(query, |query|);
    }
  }

  /** Counting from the second item on. */
  lemma {:induction false} TruthyBeforeTail(query: seq<Item>, i: nat)
    requires 1 <= i <= |query|
    ensures TruthyBefore(query, i) ==
      (if Truthy(query[0].1) then 1 else 0) + TruthyBefore(query[1..], i - 1)
  {
    if i > 1 {
      TruthyBeforeTail(query, i - 1);
      assert query[1..][i - 2] == query[i - 1];
    }
  }

  /** Each truthy item's clause sits at the position given by the truthy
      items before it, with its key and value unchanged. */
  lemma {:induction false} ClauseAt(query: seq<Item>, i: nat)
    requires i < |query| && Truthy(query[i].1)
    ensures TruthyBefore(query, i) < |Clauses(query)|
    ensures Clauses(query)[TruthyBefore(query, i)] == MatchClause(query[i].0, query[i].1)
  {
    if i == 0 {
    } else {
      ClauseAt(query[1..], i - 1);
      TruthyBeforeTail(query, i);
      assert query[1..][i - 1] == query[i];
    }
  }

  /** Clause order follows item order: a truthy item before another truthy
      item gets the earlier clause. */
  lemma {:induction false} ClauseOrder(query: seq<Item>, i: nat, j: nat)
    requires i < j < |query| && Truthy(query[i].1)
    ensures TruthyBefore(query, i) < TruthyBefore(query, j)
    decreases j
  {
    if j > i + 1 {
      ClauseOrder(query, i, j - 1);
    }
  }

  /** Every clause comes from a truthy item. */
  lemma {:induction false} ClauseOrigin(query: seq<Item>, c: Json)
    requires c in Clauses(query)
    ensures exists i :: 0 <= i < |query| && Truthy(query[i].1) && c == MatchClause(query[i].0, query[i].1)
  {
    if Truthy(query[0].1) && c == MatchClause(query[0].0, query[0].1) {
      assert Truthy(query[0].1);
    } else {
      ClauseOrigin(query[1..], c);
      var i :| 0 <= i < |query[1..]| && Truthy(query[1..][i].1)
        && c == MatchClause(query[1..][i].0, query[1..][i].1);
      assert query[1..][i] == query[i + 1];
    }
  }

  /** The clauses of two consecutive runs of items are the clauses of each,
      in order. */
  lemma {:induction false} ClausesAppend(a: seq<Item>, b: seq<Item>)
    ensures Clauses(a + b) == Clauses(a) + Clauses(b)
  {
    if a == [] {
      assert a + b == b;
    } else {
      var ab := a + b;
      assert ab[0] == a[0] && ab[1..] == a[1..] + b;
      ClausesAppend(a[1..], b);
      var head, rest := ItemClause(a[0]), Clauses(a[1..]);
      assert Clauses(ab) == head + (rest + Clauses(b));
      assert Clauses(a) == head + rest;
    }
  }

  lemma ClausesUnfold(q: seq<Item>, k: nat)
    requires k < |q|
    ensures Clauses(q[k..]) == ItemClause(q[k]) + Clauses(q[k + 1..])
  {
    assert q[k..][0] == q[k];
    assert q[k..][1..] == q[k + 1..];
  }

  /** The clauses of a five-item query, item by item. */
  lemma ClausesOfFive(q: seq<Item>)
    requires |q| == 5
    ensures Clauses(q) ==
      ItemClause(q[0]) + (ItemClause(q[1]) + (ItemClause(q[2]) + (ItemClause(q[3]) + ItemClause(q[4]))))
  {
    assert q[5..] == [];
    ClausesUnfold(q, 4);
    assert Clauses(q[4..]) == ItemClause(q[4]);
    ClausesUnfold(q, 3);
    ClausesUnfold(q, 2);
    ClausesUnfold(q, 1);
    ClausesUnfold(q, 0);
    assert q[0..] == q;
  }

  /** A falsy item (None, 0, "") gives no clause: with a single falsy item
      the query has no clause at all. */
  lemma FalsyItemDropped(key: string, val: Json)
    requires !Truthy(val)
    ensures MustOf(SearchMaker([(key, val)])) == []
  {
  }

  // ------------------------------------------------------------ query model

  /** The text of a parsed UUID: never empty, so always truthy. */
  type UuidText = s: string | |s| > 0 witness "0"

  /** The prototype's `Query` body; every field is optional. The UUID
      `piece_id` is kept as its text. */
  datatype Query = Query(
    text: Option<string>,
    pieceId: Option<UuidText>,
    pieceType: Option<string>,
    pageNumber: Option<int>,
    documentName: Option<string>)

  function StrOrNull(v: Option<string>): Json
  {
    if v.Some? then JStr(v.value) else JNull
  }

  /** `query.dict()`: every field in declaration order, None when absent. */
  function QueryItems(q: Query): (r: seq<Item>)
    ensures |r| == 5
    ensures r[0].0 == "text" && r[1].0 == "piece_id" && r[2].0 == "type"
    ensures r[3].0 == "page_number" && r[4].0 == "document_name"
  {
    [ ("text", StrOrNull(q.text)),
      ("piece_id", if q.pieceId.Some? then JStr(q.pieceId.value) else JNull),
      ("type", StrOrNull(q.pieceType)),
      ("page_number", if q.pageNumber.Some? then JInt(q.pageNumber.value) else JNull),
      ("document_name", StrOrNull(q.documentName)) ]
  }

  const EmptyQuery: Query := Query(None, None, None, None, None)

  /** The `all` example gives an empty `must`; page number 0 is dropped while
      the `not_found` example's -10 is kept. */
  lemma QueryExamples()
    ensures MustOf(SearchMaker(QueryItems(EmptyQuery))) == []
    ensures MustOf(SearchMaker(QueryItems(EmptyQuery.(pageNumber := Some(0))))) == []
    ensures MustOf(SearchMaker(QueryItems(EmptyQuery.(pageNumber := Some(-10))))) ==
      [MatchClause("page_number", JInt(-10))]
    ensures
      var q := EmptyQuery.(text := Some("functionality"), pieceType := Some("paragraph"));
      MustOf(SearchMaker(QueryItems(q))) ==
      [MatchClause("text", JStr("functionality")), MatchClause("type", JStr("paragraph"))]
  {
    ClausesOfFive(QueryItems(EmptyQuery));
    ClausesOfFive(QueryItems(EmptyQuery.(pageNumber := Some(0))));
    ClausesOfFive(QueryItems(EmptyQuery.(pageNumber := Some(-10))));
    ClausesOfFive(QueryItems(EmptyQuery.(text := Some("functionality"), pieceType := Some("paragraph"))));
  }

  /** A sent `piece_id` always gives its match clause, since a UUID's text is
      never empty. */
  lemma PieceIdAlwaysMatched(q: Query)
    requires q.pieceId.Some?
    ensures MatchClause("piece_id", JStr(q.pieceId.value)) in MustOf(SearchMaker(QueryItems(q)))
  {
    ClauseAt(QueryItems(q), 1);
  }

  // ------------------------------------------------------- TextPiece checks

  /** The prototype `TextPiece` body. */
  datatype TextPiece = TextPiece(text: string, pieceType: string, pageNumber: int, documentName: string)

  predicate EndsWith(s: string, suffix: string)
  {
    |suffix| <= |s| && s[|s| - |suffix|..] == suffix
  }

  /** `possible_content_type`. */
  function PossibleContentType(value: string): (r: Result<string, string>)
    ensures r.Success? <==> value == "paragraph" || value == "title"
    ensures r.Success? ==> r.value == value
  {
    if value != "paragraph" && value != "title" then Failure("must be either paragraph or title")
    else Success(value)
  }

  /** `is_pdf`. */
  function IsPdf(name: string): (r: Result<string, string>)
    ensures r.Success? ==> r.value == name && |name| >= 4
  {
    if !EndsWith(name, ".pdf") then Failure("provide pdf document name, including extension")
    else Success(name)
  }

  /** A name passes `is_pdf` exactly when it is some stem followed by
      ".pdf". */
  lemma IsPdfIffPdfStem(name: string)
    ensures IsPdf(name).Success? <==> exists stem :: name == stem + ".pdf"
  {
    if IsPdf(name).Success? {
      var stem := name[..|name| - 4];
      assert name == stem + ".pdf";
    }
    if exists stem :: name == stem + ".pdf" {
      var stem :| name == stem + ".pdf";
      assert name[|name| - 4..] == ".pdf";
    }
  }

  /** pydantic runs both field validators and reports every failure. The
      page number has no constraint. */
  function ValidateTextPiece(t: TextPiece): (errors: seq<string>)
    ensures errors == [] <==>
      IsPdf(t.documentName).Success? && (t.pieceType == "paragraph" || t.pieceType == "title")
    ensures |errors| <= 2
  {
    var typeErrors := match PossibleContentType(t.pieceType)
      case Success(_) => []
      case Failure(e) => [e];
    var nameErrors := match IsPdf(t.documentName)
      case Success(_) => []
      case Failure(e) => [e];
    typeErrors + nameErrors
  }

  /** The two passing examples pass (the first with page 0) and the
      `invalid` example fails both checks. */
  lemma BodyExamples()
    ensures ValidateTextPiece(
      TextPiece("Some default text for testing functionality.", "title", 0, "doc.pdf")) == []
    ensures ValidateTextPiece(
      TextPiece("Another text for testing functionality.", "paragraph", 1, "another_doc.pdf")) == []
    ensures |ValidateTextPiece(TextPiece("This will be failure case.", "wrong type", 2, "doc.notpdf"))| == 2
  {
    assert EndsWith("doc.pdf", ".pdf");
    assert EndsWith("another_doc.pdf", ".pdf");
    assert !EndsWith("doc.notpdf", ".pdf") by {
      assert "doc.notpdf"[6..] == "tpdf";
    }
  }
}

=== FILE: routes.dfy ===
/** The CRUD handlers of web/main.py over a two-table store. Each handler
    takes the store and the request and gives the response together with
    the store afterwards. Body validation by pydantic happens before the
    handler runs and is the `Unprocessable` response; database errors the
    application maps to 500 are `ServerError`. */
module Routes {
  import opened Values
  import opened Schemas
  import opened Crud

  datatype Store = Store(documents: Table, pieces: Table)

  datatype Response =
    | Created(body: Entity)
    | Ok(body: Entity)
    | NoContent
    | BadRequest
    | NotFound
    | Unprocessable
    | ServerError

  datatype Reply = Reply(response: Response, store: Store)

  // ------------------------------------------------------------------ patches

  /** `patch_document`'s patch: the non-null fields of the body; a body
      without one is rejected (None). */
  function DocumentPatchData(p: DocumentPatch): (r: Option<Entity>)
    ensures r.None? <==> !p.author.Given?
    ensures r.Some? ==> r.value == map[AuthorKey := JStr(p.author.value)]
  {
    var data := DocumentPatchFields(p);
    if |data| == 0 then None else Some(data)
  }

  /** The value `meta_data` was sent with, when it was sent. */
  function SentMetaData(m: FieldInput<map<string, Json>>): Json
    requires !m.Unset?
  {
    if m.Given? then JObject(m.value) else JNull
  }

  /** `patch_text_piece`'s patch: the non-null fields of the body, plus
      `size` derived from a new `text`, with a sent but falsy `meta_data`
      (null or `{}`) turned into null. A body with no non-null field and no
      `meta_data` at all is rejected (None). */
  function TextPiecePatchData(p: TextPiecePatch): (r: Option<Entity>)
    ensures r.None? <==>
      && !p.text.Given? && !p.pieceType.Given? && !p.page.Given? && !p.documentName.Given?
      && p.metaData.Unset?
    ensures r.Some? ==> r.value.Keys <= PatchableKeys + {SizeKey}
    ensures r.Some? ==> (TextKey in r.value <==> p.text.Given?) && (SizeKey in r.value <==> p.text.Given?)
    ensures r.Some? && p.text.Given? ==>
      r.value[TextKey] == JStr(p.text.value) && r.value[SizeKey] == JInt(|p.text.value|)
    ensures r.Some? ==> (TypeKey in r.value <==> p.pieceType.Given?)
    ensures r.Some? ==> (PageKey in r.value <==> p.page.Given?)
    ensures r.Some? ==> (DocumentNameKey in r.value <==> p.documentName.Given?)
    ensures r.Some? && p.pieceType.Given? ==> r.value[TypeKey] == JStr(p.pieceType.value)
    ensures r.Some? && p.page.Given? ==> r.value[PageKey] == JInt(p.page.value)
    ensures r.Some? && p.documentName.Given? ==> r.value[DocumentNameKey] == JStr(p.documentName.value)
    ensures r.Some? ==> (MetaDataKey in r.value <==> !p.metaData.Unset?)
    ensures r.Some? && (p.metaData.Null? || p.metaData == Given(map[])) ==> r.value[MetaDataKey] == JNull
    ensures r.Some? && p.metaData.Given? && p.metaData.value != map[] ==>
      r.value[MetaDataKey] == JObject(p.metaData.value)
  {
    var withMetaData := !p.metaData.Unset?;
    var data := TextPiecePatchFields(p);
    if !(|data| > 0 || withMetaData) then
      None
    else
      var sized := if TextKey in data then data[SizeKey := JInt(|p.text.value|)] else data;
      if withMetaData && !Truthy(SentMetaData(p.metaData)) then
        Some(sized[MetaDataKey := JNull])
      else
        Some(sized)
  }

  /** No patch can set `size`, `indexed`, `piece_id` or `created_at` from
      the body: `size` only follows `text`, and the other three never appear. */
  lemma PatchNeverSetsServerFields(p: TextPiecePatch)
    requires TextPiecePatchData(p).Some?
    ensures var d := TextPiecePatchData(p).value;
      && IndexedKey !in d && PieceIdKey !in d && CreatedAtKey !in d
      && (SizeKey in d ==> TextKey in d && d[SizeKey] == JInt(|d[TextKey].s|))
  {
  }

  // -------------------------------------------------------- size consistency

  /** A text-piece row whose `size` is the length of its `text`. */
  predicate SizeConsistent(e: Entity)
  {
    TextKey in e && e[TextKey].JStr? && SizeKey in e && e[SizeKey] == JInt(|e[TextKey].s|)
  }

  predicate PiecesSizeConsistent(s: Store)
  {
    forall i :: 0 <= i < |s.pieces| ==> SizeConsistent(s.pieces[i])
  }

  /** Applying a text-piece patch to a size-consistent row keeps it so. */
  lemma PatchKeepsSizeConsistent(e: Entity, p: TextPiecePatch)
    requires SizeConsistent(e)
    requires TextPiecePatchData(p).Some?
    ensures SizeConsistent(ApplyPatch(e, TextPiecePatchData(p).value))
  {
    var d := TextPiecePatchData(p).value;
    var r := ApplyPatch(e, d);
    if p.text.Given? {
      assert r[TextKey] == JStr(p.text.value);
    } else {
      assert TextKey !in d && SizeKey !in d;
      assert r[TextKey] == e[TextKey] && r[SizeKey] == e[SizeKey];
    }
  }

  // ---------------------------------------------------------------- documents

  /** A decimal numeral of ASCII digits. */
  predicate IsDigits(s: string)
  {
    |s| > 0 && forall i :: 0 <= i < |s| ==> '0' <= s[i] <= '9'
  }

  function DecimalValue(s: string): (n: nat)
    requires IsDigits(s)
    decreases |s|
  {
    var last := (s[|s| - 1] as int) - ('0' as int);
    if |s| == 1 then last else 10 * DecimalValue(s[..|s| - 1]) + last
  }

  /** The range of a 32-bit INTEGER column (`document_id`, `piece_id`,
      `page`, `size`). */
  const MinInteger: int := -0x8000_0000
  const MaxInteger: int := 0x7FFF_FFFF

  /** What `get_db_entity(session, document_name, Document)` gives as
      written: the ORM looks the string up in the primary key, the INTEGER
      column `document_id`. The database rejects a key that is not an integer
      numeral in range (a DataError the application answers with 500), and
      otherwise compares it with the ids. */
  datatype KeyLookup = DataError | Missing | Row(index: nat)

  function FindDocumentAsWritten(s: Store, key: string): (r: KeyLookup)
    ensures r.DataError? <==> !IsDigits(key) || DecimalValue(key) > MaxInteger
    ensures r.Missing? <==>
      IsDigits(key) && DecimalValue(key) <= MaxInteger
      && FindRow(s.documents, DocumentIdKey, JInt(DecimalValue(key))).None?
    ensures r.Row? ==> IsDigits(key) && HasValue(s.documents, r.index, DocumentIdKey, JInt(DecimalValue(key)))
  {
    if !IsDigits(key) || DecimalValue(key) > MaxInteger then
      DataError
    else
      match FindRow(s.documents, DocumentIdKey, JInt(DecimalValue(key)))
      case None => Missing
      case Some(i) => Row(i)
  }

  /** `get_document` with the lookup as written. */
  function GetDocumentAsWritten(s: Store, key: string): (r: Reply)
    ensures r.store == s
    ensures r.response.ServerError? <==> FindDocumentAsWritten(s, key).DataError?
    ensures r.response.NotFound? <==> FindDocumentAsWritten(s, key).Missing?
    ensures r.response.Ok? <==> FindDocumentAsWritten(s, key).Row?
    ensures r.response.Ok? ==> r.response.body == s.documents[FindDocumentAsWritten(s, key).index]
    ensures r.response.Ok? ==>
      && IsDigits(key) && r.response.body in s.documents && DocumentIdKey in r.response.body
      && r.response.body[DocumentIdKey] == JInt(DecimalValue(key))
  {
    match FindDocumentAsWritten(s, key)
    case DataError => Reply(ServerError, s)
    case Missing => Reply(NotFound, s)
    case Row(i) => Reply(Ok(s.documents[i]), s)
  }

  /** `patch_document` with the lookup as written: the 400 for an empty body
      still comes first, then the lookup's 500 or 404. */
  function PatchDocumentAsWritten(s: Store, key: string, body: DocumentPatch): (r: Reply)
    ensures r.response.BadRequest? <==> !body.author.Given?
    ensures r.response.ServerError? <==> body.author.Given? && FindDocumentAsWritten(s, key).DataError?
    ensures r.response.NotFound? <==> body.author.Given? && FindDocumentAsWritten(s, key).Missing?
    ensures r.response.Ok? <==> body.author.Given? && FindDocumentAsWritten(s, key).Row?
    ensures !r.response.Ok? ==> r.store == s
    ensures r.response.Ok? ==>
      var i := FindDocumentAsWritten(s, key).index;
      && r.response.body == ApplyPatch(s.documents[i], map[AuthorKey := JStr(body.author.value)])
      && r.store == s.(documents := s.documents[i := r.response.body])
  {
    match DocumentPatchData(body)
    case None => Reply(BadRequest, s)
    case Some(patch) =>
      match FindDocumentAsWritten(s, key)
      case DataError => Reply(ServerError, s)
      case Missing => Reply(NotFound, s)
      case Row(i) =>
        var patched := ApplyPatch(s.documents[i], patch);
        Reply(Ok(patched), s.(documents := s.documents[i := patched]))
  }

  /** `delete_document` with the lookup as written. */
  function DeleteDocumentAsWritten(s: Store, key: string): (r: Reply)
    ensures r.response.ServerError? <==> FindDocumentAsWritten(s, key).DataError?
    ensures r.response.NotFound? <==> FindDocumentAsWritten(s, key).Missing?
    ensures r.response.NoContent? <==> FindDocumentAsWritten(s, key).Row?
    ensures !r.response.NoContent? ==> r.store == s
    ensures r.response.NoContent? ==>
      r.store == s.(documents := DeleteRow(s.documents, FindDocumentAsWritten(s, key).index))
  {
    match FindDocumentAsWritten(s, key)
    case DataError => Reply(ServerError, s)
    case Missing => Reply(NotFound, s)
    case Row(i) => Reply(NoContent, s.(documents := DeleteRow(s.documents, i)))
  }

  /** The corrected lookup: a document found by its (unique) name, as the
      routes' summaries and 404 messages describe. As written, the routes
      use `FindDocumentAsWritten` instead. */
  function FindDocument(s: Store, name: string): (r: Option<nat>)
    ensures r.None? <==> forall i :: 0 <= i < |s.documents| ==> !HasValue(s.documents, i, NameKey, JStr(name))
    ensures r.Some? ==> HasValue(s.documents, r.value, NameKey, JStr(name))
  {
    FindRow(s.documents, NameKey, JStr(name))
  }

  /** The stored document of the examples: id 1, named "Interesting book". */
  const ExampleDocument: Entity :=
    map[DocumentIdKey := JInt(1), NameKey := JStr("Interesting book"), AuthorKey := JStr("John Doe")]

  /** A stored document named "Interesting book" (id 1) is unreachable by its
      name through the as-written lookup, which the name-based lookup finds;
      and the name "1" reaches the document with id 1 although no document
      has that name. */
  lemma LookupByNameAsWrittenMisses()
    ensures var s := Store([ExampleDocument], []);
      && GetDocumentAsWritten(s, "Interesting book").response == ServerError
      && GetDocument(s, "Interesting book").response == Ok(ExampleDocument)
      && GetDocumentAsWritten(s, "1").response == Ok(ExampleDocument)
      && GetDocument(s, "1").response == NotFound
  {
    var s := Store([ExampleDocument], []);
    assert !IsDigits("Interesting book") by {
      assert !('0' <= "Interesting book"[0] <= '9');
    }
    assert IsDigits("1") && DecimalValue("1") == 1;
    assert HasValue(s.documents, 0, DocumentIdKey, JInt(1));
    assert HasValue(s.documents, 0, NameKey, JStr("Interesting book"));
    assert !HasValue(s.documents, 0, NameKey, JStr("1"));
  }

  /** The same document cannot be patched or deleted by its name as written:
      both answer 500, where the name-based lookup patches or deletes it. */
  lemma PatchAndDeleteByNameAsWrittenFail()
    ensures var s := Store([ExampleDocument], []);
      var body := DocumentPatch(Given("Jules Verne"));
      && PatchDocumentAsWritten(s, "Interesting book", body).response == ServerError
      && PatchDocument(s, "Interesting book", body).response.Ok?
      && DeleteDocumentAsWritten(s, "Interesting book").response == ServerError
      && DeleteDocument(s, "Interesting book") == Reply(NoContent, Store([], []))
  {
    var s := Store([ExampleDocument], []);
    assert !IsDigits("Interesting book") by {
      assert !('0' <= "Interesting book"[0] <= '9');
    }
    assert HasValue(s.documents, 0, NameKey, JStr("Interesting book"));
  }

  /** `post_document`: a new row with the body's fields and the id the
      database assigns (`newId`); a taken name or id violates a constraint. */
  function PostDocument(s: Store, body: DocumentIn, newId: int): (r: Reply)
    ensures !ValidDocumentIn(body) ==> r == Reply(Unprocessable, s)
    ensures r.response.Created? ==>
      && r.response.body == DocumentFields(body)
      && r.store.pieces == s.pieces
      && |r.store.documents| == |s.documents| + 1
      && r.store.documents[..|s.documents|] == s.documents
      && r.store.documents[|s.documents|] == DocumentFields(body)[DocumentIdKey := JInt(newId)]
      && FindDocument(r.store, body.name).Some?
    ensures ValidDocumentIn(body) ==> (r.response.Created? <==>
      FindDocument(s, body.name).None? && FindRow(s.documents, DocumentIdKey, JInt(newId)).None?)
    ensures ValidDocumentIn(body) && !r.response.Created? ==> r.response == ServerError
    ensures !r.response.Created? ==> r.store == s
  {
    if !ValidDocumentIn(body) then
      Reply(Unprocessable, s)
    else if FindDocument(s, body.name).Some? || FindRow(s.documents, DocumentIdKey, JInt(newId)).Some? then
      Reply(ServerError, s)
    else
      var row := DocumentFields(body)[DocumentIdKey := JInt(newId)];
      var s' := s.(documents := s.documents + [row]);
      assert HasValue(s'.documents, |s.documents|, NameKey, JStr(body.name));
      Reply(Created(DocumentFields(body)), s')
  }

  /** `get_document`, looking the document up by name. */
  function GetDocument(s: Store, name: string): (r: Reply)
    ensures r.store == s
    ensures r.response.NotFound? <==>
      forall i :: 0 <= i < |s.documents| ==> !HasValue(s.documents, i, NameKey, JStr(name))
    ensures r.response.NotFound? || r.response.Ok?
    ensures r.response.Ok? ==>
      r.response.body in s.documents && NameKey in r.response.body && r.response.body[NameKey] == JStr(name)
  {
    match GetEntity(s.documents, NameKey, JStr(name))
    case None => Reply(NotFound, s)
    case Some(row) => Reply(Ok(row), s)
  }

  /** `patch_document`, looking the document up by name: an empty body is a
      400 before the lookup, then a missing document is a 404, else `author`
      is overwritten. */
  function PatchDocument(s: Store, name: string, body: DocumentPatch): (r: Reply)
    ensures r.response.BadRequest? <==> !body.author.Given?
    ensures r.response.NotFound? <==> body.author.Given? && FindDocument(s, name).None?
    ensures r.response.Ok? <==> body.author.Given? && FindDocument(s, name).Some?
    ensures !r.response.Ok? ==> r.store == s
    ensures r.response.Ok? ==>
      var i := FindDocument(s, name).value;
      && r.response.body == ApplyPatch(s.documents[i], map[AuthorKey := JStr(body.author.value)])
      && r.store == s.(documents := s.documents[i := r.response.body])
  {
    match DocumentPatchData(body)
    case None => Reply(BadRequest, s)
    case Some(patch) =>
      match FindDocument(s, name)
      case None => Reply(NotFound, s)
      case Some(i) =>
        var patched := ApplyPatch(s.documents[i], patch);
        Reply(Ok(patched), s.(documents := s.documents[i := patched]))
  }

  /** `delete_document`, looking the document up by name. The cascade to the document's text pieces is done by
      the ORM relationship, which is not part of this model. */
  function DeleteDocument(s: Store, name: string): (r: Reply)
    ensures r.response.NotFound? <==> FindDocument(s, name).None?
    ensures r.response.NotFound? ==> r.store == s
    ensures !r.response.NotFound? ==>
      && r.response == NoContent
      && r.store == s.(documents := DeleteRow(s.documents, FindDocument(s, name).value))
  {
    match FindDocument(s, name)
    case None => Reply(NotFound, s)
    case Some(i) => Reply(NoContent, s.(documents := DeleteRow(s.documents, i)))
  }

  // -------------------------------------------------------------- text pieces

  /** The columns filled in on insert without coming from the body: the id
      from the database's sequence, `indexed` from the ORM's default False,
      and `created_at` from the database's now(). */
  function ServerFields(newId: int, now: Json): Entity
  {
    map[PieceIdKey := JInt(newId), IndexedKey := JBool(false), CreatedAtKey := now]
  }

  /** The shape of a freshly created text-piece row: the schema fields,
      `size = len(text)`, and the server fields with `indexed` false. */
  predicate NewPieceRow(row: Entity, body: TextPieceIn, newId: int, now: Json)
  {
    && row.Keys == PatchableKeys + {SizeKey, PieceIdKey, IndexedKey, CreatedAtKey}
    && (forall k :: k in PatchableKeys ==> row[k] == TextPieceFields(body)[k])
    && row[TextKey] == JStr(body.text) && row[SizeKey] == JInt(|body.text|)
    && row[IndexedKey] == JBool(false) && row[PieceIdKey] == JInt(newId) && row[CreatedAtKey] == now
    && SizeConsistent(row)
  }

  lemma NewPieceRowShape(body: TextPieceIn, newId: int, now: Json)
    ensures CreateEntity(TextPieceFields(body), map[SizeKey := JInt(|body.text|)]).Some?
    ensures var row := CreateEntity(TextPieceFields(body), map[SizeKey := JInt(|body.text|)]).value;
      NewPieceRow(row + ServerFields(newId, now), body, newId, now)
  {
    var fields := TextPieceFields(body);
    var extra := map[SizeKey := JInt(|body.text|)];
    assert fields.Keys !! extra.Keys;
    var row := CreateEntity(fields, extra).value;
    assert row.Keys == PatchableKeys + {SizeKey};
    var server := ServerFields(newId, now);
    assert server.Keys == {PieceIdKey, IndexedKey, CreatedAtKey};
    var stored := row + server;
    assert TextKey !in server && SizeKey !in server;
    assert stored[TextKey] == row[TextKey] == JStr(body.text);
    assert stored[SizeKey] == row[SizeKey] == JInt(|body.text|);
    assert forall k :: k in PatchableKeys ==> stored[k] == fields[k];
  }

  /** A row whose `page`, if it is an integer, fits the 32-bit INTEGER
      column; the database rejects any other write (a DataError, answered
      500). */
  predicate PageInRange(e: Entity)
  {
    PageKey in e && e[PageKey].JInt? ==> MinInteger <= e[PageKey].i <= MaxInteger
  }

  /** `post_text_piece`: the row built from the body plus `size = len(text)`,
      completed by the database. A taken id or a page beyond the INTEGER
      range makes the insert fail. */
  function PostTextPiece(s: Store, body: TextPieceIn, newId: int, now: Json): (r: Reply)
    ensures !ValidTextPieceIn(body) ==> r == Reply(Unprocessable, s)
    ensures ValidTextPieceIn(body) ==>
      (r.response.Created? <==> FindRow(s.pieces, PieceIdKey, JInt(newId)).None? && body.page <= MaxInteger)
    ensures ValidTextPieceIn(body) && !r.response.Created? ==> r.response == ServerError
    ensures !r.response.Created? ==> r.store == s
    ensures r.response.Created? ==>
      && NewPieceRow(r.response.body, body, newId, now)
      && (forall k :: k in TextPieceFields(body) ==>
            k in r.response.body && r.response.body[k] == TextPieceFields(body)[k])
      && r.store == s.(pieces := s.pieces + [r.response.body])
  {
    if !ValidTextPieceIn(body) then
      Reply(Unprocessable, s)
    else if FindRow(s.pieces, PieceIdKey, JInt(newId)).Some? || !PageInRange(TextPieceFields(body)) then
      Reply(ServerError, s)
    else
      NewPieceRowShape(body, newId, now);
      match CreateEntity(TextPieceFields(body), map[SizeKey := JInt(|body.text|)])
      case None => Reply(ServerError, s)
      case Some(row) =>
        var stored := row + ServerFields(newId, now);
        Reply(Created(stored), s.(pieces := s.pieces + [stored]))
  }

  /** `get_text_piece`. */
  function GetTextPiece(s: Store, id: int): (r: Reply)
    ensures r.store == s
    ensures r.response.NotFound? <==>
      forall i :: 0 <= i < |s.pieces| ==> !HasValue(s.pieces, i, PieceIdKey, JInt(id))
    ensures r.response.NotFound? || r.response.Ok?
    ensures r.response.Ok? ==>
      r.response.body in s.pieces && PieceIdKey in r.response.body && r.response.body[PieceIdKey] == JInt(id)
  {
    match GetEntity(s.pieces, PieceIdKey, JInt(id))
    case None => Reply(NotFound, s)
    case Some(row) => Reply(Ok(row), s)
  }

  /** `patch_text_piece`: body validation, then the 400 for an empty body
      before the lookup, then the 404, then the field overrides, which the
      database refuses to commit for a page beyond the INTEGER range. */
  function PatchTextPiece(s: Store, id: int, body: TextPiecePatch): (r: Reply)
    ensures !ValidTextPiecePatch(body) ==> r == Reply(Unprocessable, s)
    ensures r.response.BadRequest? <==> ValidTextPiecePatch(body) && TextPiecePatchData(body).None?
    ensures r.response.NotFound? <==>
      && ValidTextPiecePatch(body) && TextPiecePatchData(body).Some?
      && FindRow(s.pieces, PieceIdKey, JInt(id)).None?
    ensures r.response.Ok? <==>
      && ValidTextPiecePatch(body) && TextPiecePatchData(body).Some?
      && FindRow(s.pieces, PieceIdKey, JInt(id)).Some? && PageInRange(TextPiecePatchData(body).value)
    ensures r.response.ServerError? <==>
      && ValidTextPiecePatch(body) && TextPiecePatchData(body).Some?
      && FindRow(s.pieces, PieceIdKey, JInt(id)).Some? && !PageInRange(TextPiecePatchData(body).value)
    ensures !r.response.Ok? ==> r.store == s
    ensures r.response.Ok? ==>
      var i := FindRow(s.pieces, PieceIdKey, JInt(id)).value;
      && r.response.body == ApplyPatch(s.pieces[i], TextPiecePatchData(body).value)
      && r.store == s.(pieces := s.pieces[i := r.response.body])
  {
    if !ValidTextPiecePatch(body) then
      Reply(Unprocessable, s)
    else
      match TextPiecePatchData(body)
      case None => Reply(BadRequest, s)
      case Some(patch) =>
        match FindRow(s.pieces, PieceIdKey, JInt(id))
        case None => Reply(NotFound, s)
        case Some(i) =>
          if !PageInRange(patch) then Reply(ServerError, s)
          else
            var patched := ApplyPatch(s.pieces[i], patch);
            Reply(Ok(patched), s.(pieces := s.pieces[i := patched]))
  }

  /** `delete_text_piece`: a missing id is a 404 and deletes nothing. */
  function DeleteTextPiece(s: Store, id: int): (r: Reply)
    ensures r.response.NotFound? <==> FindRow(s.pieces, PieceIdKey, JInt(id)).None?
    ensures r.response.NotFound? ==> r.store == s
    ensures !r.response.NotFound? ==>
      && r.response == NoContent
      && r.store == s.(pieces := DeleteRow(s.pieces, FindRow(s.pieces, PieceIdKey, JInt(id)).value))
      && |r.store.pieces| == |s.pieces| - 1
      && forall e :: e in r.store.pieces ==> e in s.pieces
  {
    match FindRow(s.pieces, PieceIdKey, JInt(id))
    case None => Reply(NotFound, s)
    case Some(i) =>
      var rest := DeleteRow(s.pieces, i);
      assert forall e :: e in rest ==> e in s.pieces by {
        forall e | e in rest
          ensures e in s.pieces
        {
          var j :| 0 <= j < |rest| && rest[j] == e;
          if j < i { assert s.pieces[j] == e; } else { assert s.pieces[j + 1] == e; }
        }
      }
      Reply(NoContent, s.(pieces := rest))
  }

  // --------------------------------------------------------------- properties

  /** An empty document patch on a missing document is a 400, not a 404. */
  lemma EmptyDocumentPatchBeforeLookup(s: Store, name: string)
    requires FindDocument(s, name).None?
    ensures PatchDocument(s, name, DocumentPatch(Unset)).response == BadRequest
    ensures PatchDocument(s, name, DocumentPatch(Null)).response == BadRequest
  {
  }

  /** A text-piece patch whose fields are null or left out, with `meta_data`
      left out, is a 400 whatever the store holds; sending `meta_data` as
      null or `{}` alone is a valid patch that clears it. */
  lemma NullOnlyTextPiecePatch(s: Store, id: int)
    ensures PatchTextPiece(s, id, TextPiecePatch(Null, Null, Null, Unset, Unset)).response == BadRequest
    ensures TextPiecePatchData(TextPiecePatch(Unset, Unset, Unset, Unset, Null)) ==
      Some(map[MetaDataKey := JNull])
    ensures TextPiecePatchData(TextPiecePatch(Unset, Unset, Unset, Unset, Given(map[]))) ==
      Some(map[MetaDataKey := JNull])
  {
    var d := TextPiecePatchData(TextPiecePatch(Unset, Unset, Unset, Unset, Given(map[]))).value;
    assert d.Keys == {MetaDataKey};
    assert d == map[MetaDataKey := JNull];
  }

  /** Creating a text piece keeps every stored piece size-consistent. */
  lemma PostTextPieceKeepsSizeConsistent(s: Store, body: TextPieceIn, newId: int, now: Json)
    requires PiecesSizeConsistent(s)
    ensures PiecesSizeConsistent(PostTextPiece(s, body, newId, now).store)
  {
    var r := PostTextPiece(s, body, newId, now);
    if r.response.Created? {
      assert forall j :: 0 <= j < |s.pieces| ==> r.store.pieces[j] == s.pieces[j];
    }
  }

  /** Patching a text piece keeps every stored piece size-consistent. */
  lemma PatchTextPieceKeepsSizeConsistent(s: Store, id: int, body: TextPiecePatch)
    requires PiecesSizeConsistent(s)
    ensures PiecesSizeConsistent(PatchTextPiece(s, id, body).store)
  {
    var r := PatchTextPiece(s, id, body);
    if r.response.Ok? {
      var i := FindRow(s.pieces, PieceIdKey, JInt(id)).value;
      PatchKeepsSizeConsistent(s.pieces[i], body);
    }
  }

  /** Deleting a text piece keeps every remaining piece size-consistent. */
  lemma DeleteTextPieceKeepsSizeConsistent(s: Store, id: int)
    requires PiecesSizeConsistent(s)
    ensures PiecesSizeConsistent(DeleteTextPiece(s, id).store)
  {
    var r := DeleteTextPiece(s, id);
    if r.response.NoContent? {
      forall j | 0 <= j < |r.store.pieces|
        ensures SizeConsistent(r.store.pieces[j])
      {
        assert r.store.pieces[j] in s.pieces;
      }
    }
  }

  /** Every handler keeps every stored text piece's `size` equal to the
      length of its `text`; the document handlers leave the pieces alone. */
  lemma HandlersKeepSizeConsistent(
    s: Store, id: int, name: string, newId: int, now: Json,
    pieceIn: TextPieceIn, piecePatch: TextPiecePatch, docIn: DocumentIn, docPatch: DocumentPatch)
    requires PiecesSizeConsistent(s)
    ensures PiecesSizeConsistent(PostTextPiece(s, pieceIn, newId, now).store)
    ensures PiecesSizeConsistent(PatchTextPiece(s, id, piecePatch).store)
    ensures PiecesSizeConsistent(DeleteTextPiece(s, id).store)
    ensures PiecesSizeConsistent(PostDocument(s, docIn, newId).store)
    ensures PiecesSizeConsistent(PatchDocument(s, name, docPatch).store)
    ensures PiecesSizeConsistent(DeleteDocument(s, name).store)
  {
    PostTextPieceKeepsSizeConsistent(s, pieceIn, newId, now);
    PatchTextPieceKeepsSizeConsistent(s, id, piecePatch);
    DeleteTextPieceKeepsSizeConsistent(s, id);
  }

  /** A text-piece patch never changes any row's `indexed`, `piece_id` or
      `created_at`: only indexation may flip `indexed`. */
  lemma PatchKeepsServerFields(s: Store, id: int, body: TextPiecePatch, j: int, key: string)
    requires 0 <= j < |s.pieces|
    requires key in {IndexedKey, PieceIdKey, CreatedAtKey}
    requires key in s.pieces[j]
    ensures var after := PatchTextPiece(s, id, body).store.pieces;
      |after| == |s.pieces| && key in after[j] && after[j][key] == s.pieces[j][key]
  {
    var r := PatchTextPiece(s, id, body);
    if r.response.Ok? {
      PatchNeverSetsServerFields(body);
    }
  }
}

=== FILE: schemas.dfy ===
/** Request bodies of the CRUD API (web/schemas.py): the text-piece type
    enum, the create and patch bodies with their field constraints, the
    pagination defaults, and the dictionaries pydantic's `.dict()` produces
    from a body. */
module Schemas {
  import opened Values

  /** A row or a body dictionary: column name to value. */
  type Entity = map<string, Json>

  // Column names shared by bodies, patches and rows.
  const TextKey: string := "text"
  const TypeKey: string := "type"
  const PageKey: string := "page"
  const DocumentNameKey: string := "document_name"
  const MetaDataKey: string := "meta_data"
  const SizeKey: string := "size"
  const IndexedKey: string := "indexed"
  const PieceIdKey: string := "piece_id"
  const CreatedAtKey: string := "created_at"
  const DocumentIdKey: string := "document_id"
  const NameKey: string := "name"
  const AuthorKey: string := "author"

  /** The keys a text-piece patch body can carry. */
  const PatchableKeys: set<string> := {TextKey, TypeKey, PageKey, DocumentNameKey, MetaDataKey}

  datatype TextPieceType = Title | Paragraph

  /** The enum member's string value. */
  function TypeValue(t: TextPieceType): string
  {
    match t
    case Title => "title"
    case Paragraph => "paragraph"
  }

  /** pydantic's enum coercion: a string is accepted only if it is the value
      of a member. */
  function ParsePieceType(s: string): (r: Option<TextPieceType>)
    ensures r.Some? <==> s == "title" || s == "paragraph"
    ensures r.Some? ==> TypeValue(r.value) == s
  {
    if s == "title" then Some(Title)
    else if s == "paragraph" then Some(Paragraph)
    else None
  }

  lemma ParseTypeValue(t: TextPieceType)
    ensures ParsePieceType(TypeValue(t)) == Some(t)
  {
  }

  /** How a field of a request body arrived: left out, sent as null, or sent
      with a value. pydantic's `exclude_unset` drops only `Unset`;
      `exclude_none` drops both `Unset` and `Null` of a field whose default
      is None. */
  datatype FieldInput<+T> = Unset | Null | Given(value: T)

  // ---------------------------------------------------------------- documents

  datatype DocumentIn = DocumentIn(name: string, author: string)

  /** `name` has min_length=1; `author` is unconstrained. */
  predicate ValidDocumentIn(d: DocumentIn)
  {
    |d.name| >= 1
  }

  /** `DocumentInSchema.dict()`. */
  function DocumentFields(d: DocumentIn): (r: Entity)
    ensures r.Keys == {NameKey, AuthorKey}
    ensures r[NameKey] == JStr(d.name) && r[AuthorKey] == JStr(d.author)
  {
    map[NameKey := JStr(d.name), AuthorKey := JStr(d.author)]
  }

  /** The document patch body has `author` only. */
  datatype DocumentPatch = DocumentPatch(author: FieldInput<string>)

  /** `DocumentPatchSchema.dict(exclude_none=True)`. */
  function DocumentPatchFields(p: DocumentPatch): (r: Entity)
    ensures r.Keys <= {AuthorKey}
    ensures AuthorKey in r <==> p.author.Given?
    ensures AuthorKey in r ==> r[AuthorKey] == JStr(p.author.value)
  {
    match p.author
    case Given(a) => map[AuthorKey := JStr(a)]
    case _ => map[]
  }

  // -------------------------------------------------------------- text pieces

  datatype TextPieceIn = TextPieceIn(
    text: string,
    pieceType: string,
    page: int,
    documentName: string,
    metaData: Option<map<string, Json>>)

  /** Field constraints of `TextPieceInSchema`: non-empty text, a type that
      is an enum value, a page greater than 0, a non-empty document name. */
  predicate ValidTextPieceIn(t: TextPieceIn)
  {
    && |t.text| >= 1
    && ParsePieceType(t.pieceType).Some?
    && t.page > 0
    && |t.documentName| >= 1
  }

  function MetaDataValue(m: Option<map<string, Json>>): Json
  {
    match m
    case Some(fields) => JObject(fields)
    case None => JNull
  }

  /** `TextPieceInSchema.dict()`: every schema field, `meta_data` as null when
      it was not sent. */
  function TextPieceFields(t: TextPieceIn): (r: Entity)
    ensures r.Keys == PatchableKeys
    ensures r[TextKey] == JStr(t.text) && r[TypeKey] == JStr(t.pieceType)
    ensures r[PageKey] == JInt(t.page) && r[DocumentNameKey] == JStr(t.documentName)
    ensures r[MetaDataKey] == MetaDataValue(t.metaData)
  {
    map[
      TextKey := JStr(t.text),
      TypeKey := JStr(t.pieceType),
      PageKey := JInt(t.page),
      DocumentNameKey := JStr(t.documentName),
      MetaDataKey := MetaDataValue(t.metaData)]
  }

  /** The text-piece patch body. It has no `size`, `indexed`, `piece_id` or
      `created_at` field, so none of those can be sent. */
  datatype TextPiecePatch = TextPiecePatch(
    text: FieldInput<string>,
    pieceType: FieldInput<string>,
    page: FieldInput<int>,
    documentName: FieldInput<string>,
    metaData: FieldInput<map<string, Json>>)

  /** Field constraints of `TextPiecePatchSchema`; they apply to a sent
      value only, null is allowed for every field. */
  predicate ValidTextPiecePatch(p: TextPiecePatch)
  {
    && (p.text.Given? ==> |p.text.value| >= 1)
    && (p.pieceType.Given? ==> ParsePieceType(p.pieceType.value).Some?)
    && (p.page.Given? ==> p.page.value > 0)
    && (p.documentName.Given? ==> |p.documentName.value| >= 1)
  }

  /** `TextPiecePatchSchema.dict(exclude_none=True)`: the fields sent with a
      non-null value. */
  function TextPiecePatchFields(p: TextPiecePatch): (r: Entity)
    ensures r.Keys <= PatchableKeys
    ensures TextKey in r <==> p.text.Given?
    ensures TypeKey in r <==> p.pieceType.Given?
    ensures PageKey in r <==> p.page.Given?
    ensures DocumentNameKey in r <==> p.documentName.Given?
    ensures MetaDataKey in r <==> p.metaData.Given?
    ensures TextKey in r ==> r[TextKey] == JStr(p.text.value)
    ensures TypeKey in r ==> r[TypeKey] == JStr(p.pieceType.value)
    ensures PageKey in r ==> r[PageKey] == JInt(p.page.value)
    ensures DocumentNameKey in r ==> r[DocumentNameKey] == JStr(p.documentName.value)
    ensures MetaDataKey in r ==> r[MetaDataKey] == JObject(p.metaData.value)
  {
    var withText := if p.text.Given? then map[TextKey := JStr(p.text.value)] else map[];
    var withType := if p.pieceType.Given? then withText[TypeKey := JStr(p.pieceType.value)] else withText;
    var withPage := if p.page.Given? then withType[PageKey := JInt(p.page.value)] else withType;
    var withName :=
      if p.documentName.Given? then withPage[DocumentNameKey := JStr(p.documentName.value)] else withPage;
    if p.metaData.Given? then withName[MetaDataKey := JObject(p.metaData.value)] else withName
  }

  /** A create body sent as a patch: every field given, `meta_data` as sent. */
  function AsPatch(t: TextPieceIn): TextPiecePatch
  {
    TextPiecePatch(
      Given(t.text), Given(t.pieceType), Given(t.page), Given(t.documentName),
      if t.metaData.Some? then Given(t.metaData.value) else Null)
  }

  /** The patch body carries the create body's constraints, field by field:
      a create body is valid iff it is valid as a patch. */
  lemma CreateAndPatchConstraintsAgree(t: TextPieceIn)
    ensures ValidTextPieceIn(t) <==> ValidTextPiecePatch(AsPatch(t))
  {
  }

  /** The boundaries of the field constraints: an empty name, text or
      document name and a page of 0 are rejected, a page of 1 and an empty
      author are accepted, and a patch of nulls only passes validation. */
  lemma FieldConstraintBoundaries(t: TextPieceIn)
    requires ValidTextPieceIn(t)
    ensures !ValidDocumentIn(DocumentIn("", "John Doe"))
    ensures ValidDocumentIn(DocumentIn("Interesting book", ""))
    ensures !ValidTextPieceIn(t.(text := "")) && !ValidTextPieceIn(t.(documentName := ""))
    ensures !ValidTextPieceIn(t.(page := 0)) && ValidTextPieceIn(t.(page := 1))
    ensures !ValidTextPieceIn(t.(pieceType := "wrong type"))
    ensures ValidTextPiecePatch(TextPiecePatch(Null, Null, Null, Null, Null))
    ensures !ValidTextPiecePatch(TextPiecePatch(Unset, Unset, Given(0), Unset, Unset))
  {
  }

  // --------------------------------------------------------------- pagination

  const DefaultPageNum: int := 1
  const DefaultPageSize: int := 15

  /** `PaginationSchema`: both fields are `Optional[int]` with a default, so
      a missing field takes the default, an explicit null stays null, and a
      sent integer is kept as it is (there is no lower bound). */
  datatype Pagination = Pagination(pageNum: Option<int>, pageSize: Option<int>)

  function WithDefault(input: FieldInput<int>, default: int): Option<int>
  {
    match input
    case Unset => Some(default)
    case Null => None
    case Given(n) => Some(n)
  }

  function ParsePagination(pageNum: FieldInput<int>, pageSize: FieldInput<int>): (r: Pagination)
    ensures pageNum.Unset? ==> r.pageNum == Some(DefaultPageNum)
    ensures pageSize.Unset? ==> r.pageSize == Some(DefaultPageSize)
    ensures pageNum.Given? ==> r.pageNum == Some(pageNum.value)
    ensures pageSize.Given? ==> r.pageSize == Some(pageSize.value)
    ensures pageNum.Null? <==> r.pageNum.None?
    ensures pageSize.Null? <==> r.pageSize.None?
  {
    Pagination(WithDefault(pageNum, DefaultPageNum), WithDefault(pageSize, DefaultPageSize))
  }

  /** An empty pagination body gives page 1 of size 15, and a zero or
      negative page number or size is accepted unchanged. */
  lemma PaginationDefaultsAndNoBound(n: int, s: int)
    ensures ParsePagination(Unset, Unset) == Pagination(Some(1), Some(15))
    ensures n <= 0 && s <= 0 ==> ParsePagination(Given(n), Given(s)) == Pagination(Some(n), Some(s))
  {
  }
}

=== FILE: values.dfy ===
/** Shared value types: optional and failure-carrying wrappers, a JSON-like
    value type for request bodies and stored rows, and Python's truthiness
    rule on those values (the `if val` / `not value` tests of the source). */
module Values {

  datatype Option<+T> = None | Some(value: T)

  datatype Result<+T, +E> = Success(value: T) | Failure(error: E)

  /** A JSON value as pydantic hands it to the handlers (and as a row column
      holds it). Objects are finite maps from keys to values. */
  datatype Json =
    | JNull
    | JBool(b: bool)
    | JInt(i: int)
    | JStr(s: string)
    | JList(items: seq<Json>)
    | JObject(fields: map<string, Json>)

  /** Python truthiness: None, False, 0, "", [] and {} are falsy; everything
      else is truthy. */
  predicate Truthy(v: Json)
  {
    match v
    case JNull => false
    case JBool(b) => b
    case JInt(i) => i != 0
    case JStr(s) => |s| > 0
    case JList(items) => |items| > 0
    case JObject(fields) => |fields| > 0
  }

  /** Only the six "empty" values are falsy. */
  lemma FalsyValues(v: Json)
    ensures !Truthy(v) <==>
      v in {JNull, JBool(false), JInt(0), JStr(""), JList([]), JObject(map[])}
  {
    match v
    case JObject(fields) =>
      if |fields| == 0 {
        assert fields == map[];
      }
    case JList(items) =>
    case JStr(s) =>
    case _ =>
  }
}
